=== FILE: README.md ===
# Contact book — a Dafny model

This project models the data layer of a small command-line contact book
(`tasks/bot.py`). A `Phone` is text that passed validation: exactly ten
digits. A `Record` holds a `Name` and an ordered list of phones. An
`AddressBook` maps each name's text to its record. `parse_input` splits a
command line into a lower-cased command word and its arguments. The file
also holds an unused second design: dictionary-based handlers
(`add_contact`, `change_contact`, `show_phone`, `show_all`) wrapped by an
`input_error` decorator that turns exceptions into fixed replies. That
design is modelled too.

Python exceptions become values. `Phone(...)` and the record operations
return `Result<_, BookError>`. `find_phone` and `find` return `Option`.
The handlers' `KeyError`, `ValueError` and `IndexError` become a `Fault`
that `InputError` maps to its message. Every operation returns the new
record, book or dictionary instead of mutating it. In the source each
failing operation raises before it changes anything, so a `Failure`
carries no new state: the caller keeps what it had.

Modules, one per concept:

- `Wrappers`: `Option` and `Result`.
- `Seqs`: the front-to-back first-match scan (`FirstIndex`), `str.join` (`Join`), and `str.split(c)` (`SplitOn`).
- `Text`: the ASCII character classes, `lower`, `capitalize`, `strip`, and `split()` (`Words`).
- `Fields`: `Field`, `Name`, `Phone` and `Phone.validate` (`MakePhone`). `str()` of a field is its `value`.
- `Records`: `Record` and its phone operations, plus `__str__` (`Render`). `NewRecord` is `Record(name)`.
- `Books`: `AddressBook` as `map<string, Record>`.
- `Commands`: `parse_input`.
- `Handlers`: the dictionary-based handlers and `input_error`. The dictionary is an insertion-ordered list of entries, so that `show_all` lists entries in Python's dict order. Every handler keeps the names in it distinct, as a dict's keys are.

## Model

| member | source | states |
|---|---|---|
| Fields.MakePhone | tasks/bot.py:13-20 | Building a phone succeeds exactly when the text is ten ASCII digits, and the phone then displays as that text. Anything else fails with the "Phone number must be 10 digits" error. |
| Fields.AllDigitsMeans | tasks/bot.py:19-20 | The front-to-back digit check that models `isdigit` agrees with "every character is a digit". |
| Records.NewRecord | tasks/bot.py:23-25 | A new record has the given name and no phones, so the ten-digit invariant holds from the start. |
| Records.Locate | tasks/bot.py:38-39 | The shared scan returns the index of the first phone with the given text, and `None` exactly when no phone has that text. |
| Records.AddPhone | tasks/bot.py:27-28 | A valid phone is appended: length grows by one, earlier phones and the name are unchanged. Invalid text fails with the validation error. The ten-digit invariant of all stored phones is preserved. |
| Records.RemovePhone | tasks/bot.py:30-35 | Success exactly when some phone matches. Only the first match is removed; the others keep their order; length shrinks by one; the multiset loses exactly that phone. No match fails with "Phone not found". The invariant is preserved. |
| Records.EditPhone | tasks/bot.py:37-42 | Success exactly when the old text is present and the new text is valid. Only the first match is replaced, at the same index; length and all other positions are unchanged. A missing old phone fails with "Phone not found" even if the new text is invalid. A present old phone with invalid new text fails with the validation error. The invariant is preserved. |
| Records.FindPhone | tasks/bot.py:44-48 | Returns the phone at the first matching index, and `None` exactly when no phone has the given text. |
| Records.RenderRoundTrip | tasks/bot.py:50-51 | The display line starts with "Contact name: {name}, phones: ". The rest of the line is exactly the phones, in order, separated by "; ": a decoder that rejects any other separator or trailing text reads the phones back from it. |
| Records.RemoveAfterAdd | tasks/bot.py:27-35 | Adding a phone that was not present and then removing it gives back the original record. |
| Records.FindAfterAdd | tasks/bot.py:27-48 | After a valid phone is added, looking it up finds it. |
| Records.FindAfterRemove | tasks/bot.py:30-48 | Removing the only copy of a phone makes it unfindable. |
| Records.EditRoundTrip | tasks/bot.py:37-42 | Editing a present phone to an unused valid one, then editing back, gives back the original record. |
| Books.AddRecord | tasks/bot.py:54-55 | Stores the record under its name's text and overwrites any previous entry. No other entry changes. Every entry stays keyed by its own record's name. |
| Books.Find | tasks/bot.py:57-58 | Returns the record stored under exactly that key, and `None` exactly when the key is absent. In a well-keyed book the found record has that name. |
| Books.Delete | tasks/bot.py:60-62 | Removes the key if it is present and is a no-op otherwise. No other entry changes. Keying is preserved. |
| Books.FindAfterAdd | tasks/bot.py:54-58 | After `add_record`, `find` of the record's name returns that record. Every other name finds what it found before. |
| Books.FindAfterDelete | tasks/bot.py:57-62 | After `delete`, `find` of that name is `None`. Every other name finds what it found before. |
| Books.DeleteAfterAdd | tasks/bot.py:54-62 | Adding under a fresh name and then deleting that name gives back the original book. |
| Books.AddOverwrites | tasks/bot.py:54-55 | Adding a second record with the same name discards the first one and its phones. |
| Text.Strip | tasks/bot.py:65 | `strip()` returns the slice of the line that starts right after its leading whitespace and has only whitespace after it. The slice starts and ends with non-whitespace, so it is empty exactly when the line is all whitespace. |
| Text.Words | tasks/bot.py:67 | Every token of `split()` is non-empty and free of whitespace. There are no tokens exactly when the line is blank. |
| Text.WordsAtSpace | tasks/bot.py:67 | Any single whitespace character separates tokens: the tokens of `a`, then a whitespace character, then `b` are the tokens of `a` followed by those of `b`. Runs of whitespace, tabs and leading or trailing blanks therefore produce no extra tokens. |
| Text.WordsKeepText | tasks/bot.py:67 | `split()` drops only whitespace: the tokens, concatenated, are the line's non-whitespace characters in order. |
| Text.WordsOfJoin | tasks/bot.py:67 | Splitting space-joined tokens gives the tokens back. |
| Text.LowerIdempotent | tasks/bot.py:68 | Lower-casing twice is the same as lower-casing once. |
| Commands.ParseInput | tasks/bot.py:64-69 | A blank line gives `("", [])`. Otherwise the command is the first `split()` token, lower-cased, and the arguments are the remaining tokens. The command then has no upper-case letter, and every argument is a non-empty, whitespace-free token. |
| Commands.ParseJoined | tasks/bot.py:64-69 | Parsing space-separated tokens gives the first token lower-cased as the command and the remaining tokens, unchanged, as the arguments. |
| Commands.ParseKeepsText | tasks/bot.py:67-69 | On a non-blank line, the command (before lower-casing) and the arguments, concatenated, are the line's non-whitespace text. |
| Handlers.InputError | tasks/bot.py:71-82 | Each of the three fault kinds maps to its fixed reply, and every reply starts with "Error: ". |
| Handlers.InputErrorDistinct | tasks/bot.py:75-80 | Different fault kinds give different replies, so the reply identifies which exception was caught. |
| Handlers.Lookup | tasks/bot.py:103-105 | `None` exactly when the name is not a key. Otherwise the result is the phone stored with that name. |
| Handlers.Put | tasks/bot.py:88 | Dict assignment. Afterwards the key maps to the new value and every other key maps to what it did before. An existing key keeps its position. A new key is appended at the end. Keys stay distinct. |
| Handlers.AddContact | tasks/bot.py:84-89 | Any argument count other than two replies "Error: Give me name and phone please." and leaves the dictionary unchanged. Otherwise the phone is stored under the lower-cased name, and no other name changes. Names stay distinct. |
| Handlers.ChangeContact | tasks/bot.py:91-98 | A wrong argument count gives the arity reply. A lower-cased name that is not a key replies "Error: Contact not found." and leaves the dictionary unchanged. Otherwise the phone is replaced in place: the key set is unchanged and no other name changes. Names stay distinct. |
| Handlers.ShowPhone | tasks/bot.py:100-105 | Never changes the dictionary. No arguments replies "Error: Enter user name.". A name that is missing after lower-casing replies "Error: Contact not found.". Otherwise the reply is the phone stored under that name. |
| Handlers.ShowAllEmpty | tasks/bot.py:107-113 | `show_all` replies "No contacts stored." exactly when the dictionary is empty. |
| Handlers.ShowAllLines | tasks/bot.py:107-113 | If no name or phone contains a line feed, splitting the listing on line feeds gives one "Name: phone" line per entry, in insertion order, with the name capitalized. |
| Handlers.ShowAfterAdd | tasks/bot.py:84-105 | Names are case-insensitive: a phone added under one spelling is shown for any spelling with the same lower-case form. |
| Handlers.ChangeAfterAdd | tasks/bot.py:84-105 | A name added under one spelling can be changed under any spelling with the same lower-case form. The reply is "Contact updated.", the names stay the same, and the new phone is then shown. |
| Handlers.ChangeMissing | tasks/bot.py:91-98 | Changing a name that was never added replies "Contact not found." and leaves the dictionary unchanged. |

## Left out

- `main` (tasks/bot.py:115-196): console input and output around a dispatch loop. The loop also cannot work as written. `command, *args = parse_input(...)` wraps the argument list in one more list, so `len(args)` is always 1. The loop is therefore not modelled as a working command interpreter.
- Python's Unicode string semantics. `isdigit` is modelled as ASCII `'0'..'9'`, so Unicode digits such as '²' or Arabic-Indic digits, which Python accepts, are rejected here. `lower` and `capitalize` map ASCII letters only. The whitespace set for `split()` and `strip()` is the ASCII one (tab through carriage return, 0x1C-0x1F, and space); non-ASCII spaces are not whitespace here.
- Object identity. `list.remove(p)` in `remove_phone` compares phones by identity, because `Phone` has no `__eq__`. Phones are values here. The element removed is the first match either way, so the result is the same.
- Shared mutation. In the source, a `Record` found in the book is mutated in place. Here every operation returns a new value, and storing it back is left to the caller.
- `UserDict` internals other than `data` item assignment, lookup and deletion.
- Non-string arguments: here every argument is a string by type.
  - A hashable non-string such as an `int` or `None` makes `Phone.validate`, `parse_input` and the handlers' `name.lower()` raise `AttributeError`. The other operations do not raise on it. `remove_phone` and `edit_phone` fail to match and raise "Phone not found". `find_phone` and `find` return `None`. `delete` does nothing. `add_contact` and `change_contact` store a phone of any type.
  - An unhashable argument such as a list raises `TypeError` in `find` and `delete`. A record whose name is unhashable does the same in `add_record`. The `phone` and `delete` commands of `main` pass a list to `find`.
- The order of `AddressBook` entries. It is only observable through the `all` command of `main`, which is left out.

=== FILE: books.dfy ===
/** `AddressBook`: records keyed by their name's text. */
module Books {
  import opened Wrappers
  import opened Records

  type AddressBook = map<string, Record>

  /** Every entry sits under its own record's name. The source relies on its
      callers for this; every operation below keeps it. */
  predicate WellKeyed(b: AddressBook)
  {
    forall k :: k in b ==> b[k].name.value == k
  }

  /** `add_record`: stores `rec` under its name, replacing whatever was
      there; no other entry changes. */
  function AddRecord(b: AddressBook, rec: Record): (r: AddressBook)
    ensures r.Keys == b.Keys + {rec.name.value}
    ensures r[rec.name.value] == rec
    ensures forall k :: k in b && k != rec.name.value ==> r[k] == b[k]
    ensures WellKeyed(b) ==> WellKeyed(r)
  {
    b[rec.name.value := rec]
  }

  /** `find`: the record stored under exactly `name`, or `None`. */
  function Find(b: AddressBook, name: string): (r: Option<Record>)
    ensures r.None? <==> name !in b
    ensures r.Some? ==> r.value == b[name]
    ensures r.Some? && WellKeyed(b) ==> r.value.name.value == name
  {
    if name in b then Some(b[name]) else None
  }

  /** `delete`: removes `name` if present and is a no-op otherwise; no other
      entry changes. */
  function Delete(b: AddressBook, name: string): (r: AddressBook)
    ensures r.Keys == b.Keys - {name}
    ensures forall k :: k in r ==> r[k] == b[k]
    ensures name !in b ==> r == b
    ensures WellKeyed(b) ==> WellKeyed(r)
  {
    if name in b then b - {name} else b
  }

  /** After `add_record(rec)`, finding its name gives `rec`, and every other
      name finds what it found before. */
  lemma FindAfterAdd(b: AddressBook, rec: Record, name: string)
    ensures Find(AddRecord(b, rec), rec.name.value) == Some(rec)
    ensures name != rec.name.value ==> Find(AddRecord(b, rec), name) == Find(b, name)
  {
  }

  /** After `delete(name)`, `find(name)` is `None`, and every other name
      finds what it found before. */
  lemma FindAfterDelete(b: AddressBook, name: string, other: string)
    ensures Find(Delete(b, name), name) == None
    ensures other != name ==> Find(Delete(b, name), other) == Find(b, other)
  {
  }

  /** Adding a record under a fresh name and deleting that name gives the
      book back. */
  lemma DeleteAfterAdd(b: AddressBook, rec: Record)
    requires rec.name.value !in b
    ensures Delete(AddRecord(b, rec), rec.name.value) == b
  {
  }

  /** Adding two records with the same name keeps only the second: the
      first one's phones are lost. */
  lemma AddOverwrites(b: AddressBook, first: Record, second: Record)
    requires first.name == second.name
    ensures AddRecord(AddRecord(b, first), second) == AddRecord(b, second)
  {
  }
}

=== FILE: commands.dfy ===
/** `parse_input`: a command line becomes a lower-cased command word and
    its arguments. */
module Commands {
  import opened Seqs
  import opened Text

  /** `parse_input(line)`: `("", [])` for a blank line; otherwise the first
      whitespace-separated token, lower-cased, and the remaining tokens. */
  function ParseInput(line: string): (r: (string, seq<string>))
    ensures Blank(line) ==> r == ("", [])
    ensures !Blank(line) ==> Token(r.0)
    ensures !Blank(line) ==> |Words(line)| > 0 && r.0 == Lower(Words(line)[0]) && r.1 == Words(line)[1..]
    ensures forall i :: 0 <= i < |r.0| ==> !IsUpper(r.0[i])
    ensures forall k :: 0 <= k < |r.1| ==> Token(r.1[k])
  {
    if |Strip(line)| == 0 then ("", [])
    else
      var ws := Words(line);
      LowerKeepsToken(ws[0]);
      (Lower(ws[0]), ws[1..])
  }

  /** Parsing a line made of space-separated tokens gives back its first
      token lower-cased and the others unchanged. */
  lemma ParseJoined(command: string, args: seq<string>)
    requires Token(command)
    requires forall k :: 0 <= k < |args| ==> Token(args[k])
    ensures ParseInput(Join([command] + args, " ")) == (Lower(command), args)
  {
    var toks := [command] + args;
    WordsOfJoin(toks);
    assert toks[1..] == args;
  }

  /** Parsing loses only whitespace and the command's case: the command and
      arguments put back together are the line's non-whitespace text, with
      the command part lower-cased. */
  lemma ParseKeepsText(line: string)
    requires !Blank(line)
    ensures |Words(line)| > 0
    ensures ParseInput(line).0 == Lower(Words(line)[0])
    ensures Join([Words(line)[0]] + ParseInput(line).1, "") == NonSpace(line)
  {
    var ws := Words(line);
    WordsKeepText(line);
    assert [ws[0]] + ws[1..] == ws;
  }
}

=== FILE: fields.dfy ===
/** `Field`, `Name` and `Phone`: a name is any text; a phone is text that
    passed validation when it was built. */
module Fields {
  import opened Wrappers
  import opened Text

  /** `Name(value)`; `str()` of it is `value`. */
  datatype Name = Name(value: string)

  /** `Phone(value)`; `str()` of it is `value`. Only `MakePhone` builds one
      from user text. */
  datatype Phone = Phone(value: string)

  /** The failures the record operations raise as `ValueError`, with the
      message each one carries. */
  datatype BookError = InvalidPhone | PhoneNotFound
  {
    function Message(): string
    {
      match this
      case InvalidPhone => "Phone number must be 10 digits"
      case PhoneNotFound => "Phone not found"
    }
  }

  /** The stored-phone invariant: exactly ten ASCII digits. */
  predicate IsPhoneText(s: string)
  {
    |s| == 10 && forall i :: 0 <= i < |s| ==> IsDigit(s[i])
  }

  /** Every character is a digit, checked front to back. */
  predicate AllDigits(s: string)
    decreases |s|
  {
    |s| == 0 || (IsDigit(s[0]) && AllDigits(s[1..]))
  }

  lemma {:induction false} AllDigitsMeans(s: string)
    ensures AllDigits(s) <==> forall i :: 0 <= i < |s| ==> IsDigit(s[i])
    decreases |s|
  {
    if |s| > 0 {
      AllDigitsMeans(s[1..]);
      assert forall i :: 0 < i < |s| ==> s[i] == s[1..][i - 1];
    }
  }

  /** `str.isdigit()`: false on the empty string. */
  predicate IsDigitString(s: string)
  {
    |s| > 0 && AllDigits(s)
  }

  /** `Phone.validate`. */
  predicate Validate(s: string)
  {
    IsDigitString(s) && |s| == 10
  }

  /** `Phone(s)`: succeeds exactly on ten-digit text and then displays as
      `s`; anything else fails with the "must be 10 digits" error. */
  function MakePhone(s: string): (r: Result<Phone, BookError>)
    ensures r.Success? <==> IsPhoneText(s)
    ensures r.Success? ==> r.value.value == s
    ensures r.Failure? ==> r.error == InvalidPhone
    ensures r.Failure? ==> r.error.Message() == "Phone number must be 10 digits"
  {
    AllDigitsMeans(s);
    if Validate(s) then Success(Phone(s)) else Failure(InvalidPhone)
  }
}

=== FILE: handlers.dfy ===
/** The dictionary-based handlers `add_contact`, `change_contact`,
    `show_phone` and `show_all`, and the `input_error` decorator that turns
    their exceptions into fixed replies. They work on a plain name-to-phone
    dictionary, store any phone text unchecked, and lower-case names. */
module Handlers {
  import opened Wrappers
  import opened Seqs
  import opened Text

  /** One name/phone pair of the dictionary. */
  datatype Entry = Entry(name: string, phone: string)

  /** A Python dict from name to phone, kept in insertion order. */
  type Contacts = seq<Entry>

  function Names(d: Contacts): (ns: seq<string>)
    ensures |ns| == |d|
    ensures forall i :: 0 <= i < |d| ==> ns[i] == d[i].name
  {
    seq(|d|, i requires 0 <= i < |d| => d[i].name)
  }

  /** No name is stored twice, as in a dict. */
  predicate DistinctNames(d: Contacts)
  {
    forall i, j :: 0 <= i < j < |d| ==> d[i].name != d[j].name
  }

  /** `contacts.get(key)`. */
  function Lookup(d: Contacts, key: string): (r: Option<string>)
    ensures r.None? <==> key !in Names(d)
    ensures r.Some? ==> exists i :: 0 <= i < |d| && d[i] == Entry(key, r.value)
  {
    match FirstIndex(Names(d), key)
    case None => None
    case Some(i) => Some(d[i].phone)
  }

  /** `contacts[key] = value`: an existing key keeps its position and gets
      the new value; a new key goes at the end. Every other key keeps its
      value. */
  function Put(d: Contacts, key: string, value: string): (r: Contacts)
    ensures Lookup(r, key) == Some(value)
    ensures forall k :: k != key ==> Lookup(r, k) == Lookup(d, k)
    ensures key in Names(d) ==> Names(r) == Names(d)
    ensures key !in Names(d) ==> r == d + [Entry(key, value)]
    ensures DistinctNames(d) ==> DistinctNames(r)
  {
    match FirstIndex(Names(d), key)
    case None =>
      var r := d + [Entry(key, value)];
      assert Names(r) == Names(d) + [key];
      assert Names(r)[..|d|] == Names(d);
      FirstIndexUnique(Names(r), key, |d|);
      forall k | k != key
        ensures Lookup(r, k) == Lookup(d, k)
      {
        SnocLookup(d, key, value, k);
      }
      r
    case Some(i) =>
      var r := d[i := Entry(key, value)];
      assert Names(r) == Names(d);
      r
  }

  lemma SnocLookup(d: Contacts, key: string, value: string, k: string)
    requires k != key
    ensures Lookup(d + [Entry(key, value)], k) == Lookup(d, k)
  {
    var r := d + [Entry(key, value)];
    assert Names(r) == Names(d) + [key];
    match FirstIndex(Names(d), k)
    case None =>
    case Some(i) =>
      assert Names(r)[..i] == Names(d)[..i];
      FirstIndexUnique(Names(r), k, i);
  }

  /** The exceptions the handlers can raise. */
  datatype Fault = KeyError | ValueError | IndexError

  /** `input_error`: each fault kind has one fixed reply, and every reply
      is marked as an error. */
  function InputError(f: Fault): (msg: string)
    ensures "Error: " <= msg
  {
    match f
    case KeyError => "Error: Contact not found."
    case ValueError => "Error: Give me name and phone please."
    case IndexError => "Error: Enter user name."
  }

  /** Different faults give different replies, so the reply tells which
      fault was raised. */
  lemma InputErrorDistinct(f: Fault, g: Fault)
    ensures InputError(f) == InputError(g) <==> f == g
  {
  }

  /** What a handler returns, together with the dictionary after it ran. */
  datatype Reply = Reply(text: string, contacts: Contacts)

  /** The decorated call: a fault becomes its reply and, since every handler
      raises before it assigns, the dictionary is left as it was. */
  function Guard(outcome: Result<Reply, Fault>, d: Contacts): Reply
  {
    match outcome
    case Success(reply) => reply
    case Failure(f) => Reply(InputError(f), d)
  }

  /** `add_contact` without its decorator: unpacking anything but two
      arguments raises `ValueError`. */
  function AddContactBody(args: seq<string>, d: Contacts): Result<Reply, Fault>
  {
    if |args| != 2 then Failure(ValueError)
    else Success(Reply("Contact added.", Put(d, Lower(args[0]), args[1])))
  }

  /** `add_contact`: stores the phone under the lower-cased name, replacing
      any phone stored there. */
  function AddContact(args: seq<string>, d: Contacts): (r: Reply)
    ensures |args| != 2 ==> r == Reply("Error: Give me name and phone please.", d)
    ensures |args| == 2 ==>
      && r.text == "Contact added."
      && Lookup(r.contacts, Lower(args[0])) == Some(args[1])
      && forall k :: k != Lower(args[0]) ==> Lookup(r.contacts, k) == Lookup(d, k)
    ensures DistinctNames(d) ==> DistinctNames(r.contacts)
  {
    Guard(AddContactBody(args, d), d)
  }

  function ChangeContactBody(args: seq<string>, d: Contacts): Result<Reply, Fault>
  {
    if |args| != 2 then Failure(ValueError)
    else
      var name := Lower(args[0]);
      if name !in Names(d) then Failure(KeyError)
      else Success(Reply("Contact updated.", Put(d, name, args[1])))
  }

  /** `change_contact`: replaces the phone of an existing lower-cased name;
      a missing name is "Contact not found." and changes nothing. */
  function ChangeContact(args: seq<string>, d: Contacts): (r: Reply)
    ensures |args| != 2 ==> r == Reply("Error: Give me name and phone please.", d)
    ensures |args| == 2 && Lookup(d, Lower(args[0])).None? ==>
      r == Reply("Error: Contact not found.", d)
    ensures |args| == 2 && Lookup(d, Lower(args[0])).Some? ==>
      && r.text == "Contact updated."
      && Names(r.contacts) == Names(d)
      && Lookup(r.contacts, Lower(args[0])) == Some(args[1])
      && forall k :: k != Lower(args[0]) ==> Lookup(r.contacts, k) == Lookup(d, k)
    ensures DistinctNames(d) ==> DistinctNames(r.contacts)
  {
    Guard(ChangeContactBody(args, d), d)
  }

  /** `show_phone` without its decorator: `args[0]` on an empty list raises
      `IndexError`; extra arguments are ignored. */
  function ShowPhoneBody(args: seq<string>, d: Contacts): Result<Reply, Fault>
  {
    if |args| == 0 then Failure(IndexError)
    else
      match Lookup(d, Lower(args[0]))
      case None => Failure(KeyError)
      case Some(p) => Success(Reply(p, d))
  }

  /** `show_phone`: the phone stored under the lower-cased first argument. */
  function ShowPhone(args: seq<string>, d: Contacts): (r: Reply)
    ensures r.contacts == d
    ensures |args| == 0 ==> r.text == "Error: Enter user name."
    ensures |args| > 0 && Lookup(d, Lower(args[0])).None? ==> r.text == "Error: Contact not found."
    ensures |args| > 0 && Lookup(d, Lower(args[0])).Some? ==>
      exists i :: 0 <= i < |d| && d[i] == Entry(Lower(args[0]), r.text)
  {
    Guard(ShowPhoneBody(args, d), d)
  }

  /** One line of `show_all`. */
  function Line(e: Entry): string
  {
    Capitalize(e.name) + ": " + e.phone
  }

  function Lines(d: Contacts): (ls: seq<string>)
    ensures |ls| == |d|
    ensures forall i :: 0 <= i < |d| ==> ls[i] == Line(d[i])
  {
    seq(|d|, i requires 0 <= i < |d| => Line(d[i]))
  }

  const Empty := "No contacts stored."

  /** `show_all`: one "Name: phone" line per entry, in insertion order,
      joined by line feeds; the fixed message when there are none. It is
      not wrapped by `input_error`. */
  function ShowAll(d: Contacts): string
  {
    if |d| == 0 then Empty else Join(Lines(d), "\n")
  }

  /** The empty-book message appears exactly when the dictionary is empty:
      no listing can be mistaken for it, because every listing has a colon
      right after the first name. */
  lemma ShowAllEmpty(d: Contacts)
    ensures ShowAll(d) == Empty <==> |d| == 0
  {
    if |d| > 0 {
      var s := ShowAll(d);
      var first := Line(d[0]);
      var c := |Capitalize(d[0].name)|;
      assert first[c] == ':';
      assert s[c] == ':';
      assert forall i :: 0 <= i < |Empty| ==> Empty[i] != ':';
    }
  }

  /** When no name or phone holds a line feed, splitting the listing on line
      feeds gives one line per entry, in order. */
  lemma ShowAllLines(d: Contacts)
    requires |d| > 0
    requires forall i :: 0 <= i < |d| ==> '\n' !in d[i].name && '\n' !in d[i].phone
    ensures SplitOn(ShowAll(d), '\n') == Lines(d)
  {
    var ls := Lines(d);
    forall k | 0 <= k < |ls|
      ensures '\n' !in ls[k]
    {
      LineHasNoNewline(d[k]);
    }
    SplitOnJoin(ls, '\n');
  }

  lemma LineHasNoNewline(e: Entry)
    requires '\n' !in e.name && '\n' !in e.phone
    ensures '\n' !in Line(e)
  {
  }

  /** Names are case-insensitive: a phone added under one spelling of a
      name is shown for any spelling that lower-cases the same. */
  lemma ShowAfterAdd(name: string, phone: string, asked: string, d: Contacts)
    requires Lower(asked) == Lower(name)
    ensures ShowPhone([asked], AddContact([name, phone], d).contacts).text == phone
  {
  }

  /** A name added under one spelling can be changed under any spelling
      with the same lower-case form, and the new phone is then shown. */
  lemma ChangeAfterAdd(name: string, phone: string, asked: string, newPhone: string, d: Contacts)
    requires Lower(asked) == Lower(name)
    ensures var added := AddContact([name, phone], d).contacts;
      var changed := ChangeContact([asked, newPhone], added);
      && changed.text == "Contact updated."
      && Names(changed.contacts) == Names(added)
      && ShowPhone([asked], changed.contacts).text == newPhone
  {
  }

  /** Changing a name that was never added replies "Contact not found."
      and leaves the dictionary alone, whatever phone is given. */
  lemma ChangeMissing(name: string, phone: string, d: Contacts)
    requires Lower(name) !in Names(d)
    ensures ChangeContact([name, phone], d) == Reply("Error: Contact not found.", d)
  {
  }
}

=== FILE: records.dfy ===
/** `Record`: a name and its phones in insertion order. Every operation
    returns the new record instead of mutating; a `Failure` means the source
    raised before touching the list, so the caller keeps the old record. */
module Records {
  import opened Wrappers
  import opened Seqs
  import opened Text
  import opened Fields

  datatype Record = Record(name: Name, phones: seq<Phone>)

  /** `Record(name)`: a record with the given name and no phones yet, so the
      ten-digit invariant holds from the start. */
  function NewRecord(name: string): (r: Record)
    ensures r.name.value == name && |r.phones| == 0
    ensures Valid(r)
  {
    Record(Name(name), [])
  }

  /** The phones' texts, in order. */
  function Values(ps: seq<Phone>): (vs: seq<string>)
    ensures |vs| == |ps|
    ensures forall i :: 0 <= i < |ps| ==> vs[i] == ps[i].value
  {
    seq(|ps|, i requires 0 <= i < |ps| => ps[i].value)
  }

  /** Every stored phone is ten digits. */
  predicate Valid(r: Record)
  {
    forall i :: 0 <= i < |r.phones| ==> IsPhoneText(r.phones[i].value)
  }

  predicate HasPhone(ps: seq<Phone>, x: string)
  {
    exists i :: 0 <= i < |ps| && ps[i].value == x
  }

  /** Index `i` holds `x` and no earlier phone does. */
  predicate IsFirst(ps: seq<Phone>, x: string, i: int)
  {
    0 <= i < |ps| && ps[i].value == x && forall j :: 0 <= j < i ==> ps[j].value != x
  }

  /** The scan the three lookups share: the first phone whose text is `x`. */
  function Locate(ps: seq<Phone>, x: string): (r: Option<nat>)
    ensures r.None? <==> !HasPhone(ps, x)
    ensures r.Some? ==> IsFirst(ps, x, r.value)
  {
    var vs := Values(ps);
    var r := FirstIndex(vs, x);
    if r.Some? then
      assert forall j :: 0 <= j < r.value ==> vs[..r.value][j] == ps[j].value;
      r
    else
      assert forall j :: 0 <= j < |ps| ==> vs[j] == ps[j].value;
      r
  }

  lemma LocateFirst(ps: seq<Phone>, x: string, i: nat)
    requires IsFirst(ps, x, i)
    ensures Locate(ps, x) == Some(i)
  {
  }

  /** `add_phone`: appends a phone built from `s`, leaving the earlier
      phones as they were; an invalid `s` fails. The ten-digit invariant is
      kept. */
  function AddPhone(r: Record, s: string): (res: Result<Record, BookError>)
    ensures res.Success? <==> IsPhoneText(s)
    ensures res.Failure? ==> res.error == InvalidPhone
    ensures res.Failure? ==> res.error.Message() == "Phone number must be 10 digits"
    ensures res.Success? ==>
      && res.value.name == r.name
      && |res.value.phones| == |r.phones| + 1
      && res.value.phones[..|r.phones|] == r.phones
      && res.value.phones[|r.phones|].value == s
    ensures res.Success? && Valid(r) ==> Valid(res.value)
  {
    match MakePhone(s)
    case Success(p) => Success(r.(phones := r.phones + [p]))
    case Failure(e) => Failure(e)
  }

  /** `remove_phone`: drops exactly the first phone whose text is `x`,
      keeping the others in order; fails with "Phone not found" when no
      phone matches. */
  function RemovePhone(r: Record, x: string): (res: Result<Record, BookError>)
    ensures res.Success? <==> HasPhone(r.phones, x)
    ensures res.Failure? ==> res.error == PhoneNotFound
    ensures res.Failure? ==> res.error.Message() == "Phone not found"
    ensures res.Success? ==>
      && res.value.name == r.name
      && |res.value.phones| == |r.phones| - 1
      && exists i :: IsFirst(r.phones, x, i) && res.value.phones == Without(r.phones, i)
    ensures res.Success? ==> multiset(res.value.phones) + multiset{Phone(x)} == multiset(r.phones)
    ensures res.Success? && Valid(r) ==> Valid(res.value)
  {
    match Locate(r.phones, x)
    case None => Failure(PhoneNotFound)
    case Some(i) =>
      DropAt(r.phones, x, i);
      Success(r.(phones := Without(r.phones, i)))
  }

  /** The phones with the one at `i` left out. */
  function Without(ps: seq<Phone>, i: nat): seq<Phone>
    requires i < |ps|
  {
    ps[..i] + ps[i + 1..]
  }

  /** Dropping the phone at `i`, which holds `x`, removes one `x` from the
      multiset and keeps every other phone. */
  lemma DropAt(ps: seq<Phone>, x: string, i: nat)
    requires i < |ps| && ps[i].value == x
    ensures |Without(ps, i)| == |ps| - 1
    ensures multiset(Without(ps, i)) + multiset{Phone(x)} == multiset(ps)
    ensures forall k :: 0 <= k < i ==> Without(ps, i)[k] == ps[k]
    ensures forall k :: i <= k < |ps| - 1 ==> Without(ps, i)[k] == ps[k + 1]
  {
    assert ps == ps[..i] + [ps[i]] + ps[i + 1..];
  }

  /** `edit_phone`: replaces the first phone whose text is `oldPhone` by one
      built from `newPhone`, at the same position. A missing `oldPhone` fails with
      "Phone not found"; a present `oldPhone` with an invalid `newPhone` fails with
      the validation error. */
  function EditPhone(r: Record, oldPhone: string, newPhone: string): (res: Result<Record, BookError>)
    ensures res.Success? <==> HasPhone(r.phones, oldPhone) && IsPhoneText(newPhone)
    ensures res.Failure? ==> (res.error == PhoneNotFound <==> !HasPhone(r.phones, oldPhone))
    ensures res.Failure? ==> (res.error == InvalidPhone <==> HasPhone(r.phones, oldPhone))
    ensures res.Failure? && !HasPhone(r.phones, oldPhone) ==> res.error.Message() == "Phone not found"
    ensures res.Failure? && HasPhone(r.phones, oldPhone) ==> res.error.Message() == "Phone number must be 10 digits"
    ensures res.Success? ==>
      && res.value.name == r.name
      && |res.value.phones| == |r.phones|
      && exists i :: IsFirst(r.phones, oldPhone, i) && res.value.phones == r.phones[i := Phone(newPhone)]
    ensures res.Success? && Valid(r) ==> Valid(res.value)
  {
    match Locate(r.phones, oldPhone)
    case None => Failure(PhoneNotFound)
    case Some(i) =>
      match MakePhone(newPhone)
      case Success(p) => Success(r.(phones := r.phones[i := p]))
      case Failure(e) => Failure(e)
  }

  /** `find_phone`: the first phone whose text is `x`, `None` exactly when
      no phone matches. */
  function FindPhone(r: Record, x: string): (res: Option<Phone>)
    ensures res.None? <==> !HasPhone(r.phones, x)
    ensures res.Some? ==> res.value.value == x
    ensures res.Some? ==> exists i :: IsFirst(r.phones, x, i) && res.value == r.phones[i]
  {
    match Locate(r.phones, x)
    case None => None
    case Some(i) => Some(r.phones[i])
  }

  /** `str(record)`. */
  function Render(r: Record): string
  {
    RenderHead(r) + Join(Values(r.phones), "; ")
  }

  function RenderHead(r: Record): string
  {
    "Contact name: " + r.name.value + ", phones: "
  }

  /** Reads ten-character phones back out of a "; "-separated list; `None`
      when the text is not exactly such a list. Whatever it accepts is the
      join of what it returns. */
  function DecodePhones(s: string): (r: Option<seq<string>>)
    ensures r.Some? ==> forall k :: 0 <= k < |r.value| ==> |r.value[k]| == 10
    ensures r.Some? ==> Join(r.value, "; ") == s
    decreases |s|
  {
    if |s| == 0 then Some([])
    else if |s| == 10 then Some([s])
    else if |s| > 12 && s[10..12] == "; " then
      match DecodePhones(s[12..])
      case None => None
      case Some(rest) =>
        assert s == s[..10] + "; " + s[12..];
        assert ([s[..10]] + rest)[1..] == rest;
        Some([s[..10]] + rest)
    else None
  }

  lemma {:induction false} DecodeJoin(vs: seq<string>)
    requires forall k :: 0 <= k < |vs| ==> |vs[k]| == 10
    ensures DecodePhones(Join(vs, "; ")) == Some(vs)
    decreases |vs|
  {
    if |vs| == 1 {
      assert Join(vs, "; ") == vs[0];
      assert vs == [vs[0]];
    } else if |vs| > 1 {
      var s := Join(vs, "; ");
      var rest := Join(vs[1..], "; ");
      assert s == vs[0] + "; " + rest;
      assert s[..10] == vs[0];
      assert s[10..12] == "; ";
      assert s[12..] == rest;
      DecodeJoin(vs[1..]);
      assert vs == [vs[0]] + vs[1..];
    }
  }

  /** The rendered line starts with the name and lists every phone, in
      order, so that the phones can be read back from it. */
  lemma RenderRoundTrip(r: Record)
    requires Valid(r)
    ensures RenderHead(r) <= Render(r)
    ensures DecodePhones(Render(r)[|RenderHead(r)|..]) == Some(Values(r.phones))
  {
    var j := Join(Values(r.phones), "; ");
    assert Render(r)[|RenderHead(r)|..] == j;
    DecodeJoin(Values(r.phones));
  }

  /** Removing a phone just added (and not present before) gives the
      record back. */
  lemma RemoveAfterAdd(r: Record, x: string)
    requires IsPhoneText(x) && !HasPhone(r.phones, x)
    ensures AddPhone(r, x).Success?
    ensures RemovePhone(AddPhone(r, x).value, x) == Success(r)
  {
    var r1 := AddPhone(r, x).value;
    var n := |r.phones|;
    assert r1.phones == r.phones + [Phone(x)];
    LocateFirst(r1.phones, x, n);
    assert r1.phones[..n] + r1.phones[n + 1..] == r.phones;
  }

  /** After adding a valid phone, looking it up finds it. */
  lemma FindAfterAdd(r: Record, x: string)
    requires IsPhoneText(x)
    ensures AddPhone(r, x).Success?
    ensures FindPhone(AddPhone(r, x).value, x) == Some(Phone(x))
  {
  }

  /** Removing the only copy of a phone makes it unfindable. */
  lemma FindAfterRemove(r: Record, x: string)
    requires multiset(r.phones)[Phone(x)] == 1
    ensures RemovePhone(r, x).Success?
    ensures FindPhone(RemovePhone(r, x).value, x) == None
  {
  }

  /** Editing `oldPhone` to an unused `newPhone` and back restores the record. */
  lemma EditRoundTrip(r: Record, oldPhone: string, newPhone: string)
    requires Valid(r) && HasPhone(r.phones, oldPhone)
    requires IsPhoneText(newPhone) && !HasPhone(r.phones, newPhone)
    ensures EditPhone(r, oldPhone, newPhone).Success?
    ensures EditPhone(EditPhone(r, oldPhone, newPhone).value, newPhone, oldPhone) == Success(r)
  {
    var i := Locate(r.phones, oldPhone).value;
    var r1 := EditPhone(r, oldPhone, newPhone).value;
    assert r1.phones == r.phones[i := Phone(newPhone)];
    assert IsFirst(r1.phones, newPhone, i);
    LocateFirst(r1.phones, newPhone, i);
    assert IsPhoneText(oldPhone);
    assert r1.phones[i := Phone(oldPhone)] == r.phones;
  }
}

=== FILE: seqs.dfy ===
/** Sequence helpers shared by the record, the handlers and the tokenizer. */
module Seqs {
  import opened Wrappers

  /** Position of the first element equal to `x`, scanning from the front
      as the source's `for` loops do; `None` when there is none. */
  function FirstIndex<T(==)>(s: seq<T>, x: T): (r: Option<nat>)
    ensures r.None? <==> x !in s
    ensures r.Some? ==> r.value < |s| && s[r.value] == x && x !in s[..r.value]
    decreases |s|
  {
    if |s| == 0 then None
    else if s[0] == x then Some(0)
    else
      assert s == [s[0]] + s[1..];
      match FirstIndex(s[1..], x)
      case None => None
      case Some(i) =>
        assert s[..i + 1] == [s[0]] + s[1..][..i];
        Some(i + 1)
  }

  /** The first index is the only index that holds `x` with no `x` before it. */
  lemma FirstIndexUnique<T>(s: seq<T>, x: T, i: nat)
    requires i < |s| && s[i] == x && x !in s[..i]
    ensures FirstIndex(s, x) == Some(i)
  {
  }

  /** Python's `sep.join(parts)`. */
  function Join(parts: seq<string>, sep: string): string
  {
    if |parts| == 0 then ""
    else if |parts| == 1 then parts[0]
    else parts[0] + sep + Join(parts[1..], sep)
  }

  /** Python's `s.split(c)` for a single separator character: the pieces
      between consecutive occurrences of `c`; there is always one piece. */
  function SplitOn(s: string, c: char): (parts: seq<string>)
    ensures |parts| > 0
    ensures forall k :: 0 <= k < |parts| ==> c !in parts[k]
    decreases |s|
  {
    if c !in s then [s]
    else
      var i := FirstIndex(s, c).value;
      [s[..i]] + SplitOn(s[i + 1..], c)
  }

  /** Splitting a joined text on its separator gives the parts back, as
      long as no part contains the separator. */
  lemma {:induction false} SplitOnJoin(parts: seq<string>, c: char)
    requires |parts| > 0
    requires forall k :: 0 <= k < |parts| ==> c !in parts[k]
    ensures SplitOn(Join(parts, [c]), c) == parts
    decreases |parts|
  {
    if |parts| == 1 {
      assert Join(parts, [c]) == parts[0];
    } else {
      var p := parts[0];
      var rest := Join(parts[1..], [c]);
      var s := Join(parts, [c]);
      assert s == p + [c] + rest;
      assert s[|p|] == c;
      assert s[..|p|] == p;
      FirstIndexUnique(s, c, |p|);
      assert s[|p| + 1..] == rest;
      SplitOnJoin(parts[1..], c);
      assert parts == [p] + parts[1..];
    }
  }
}

=== FILE: text.dfy ===
/** Character classes and the string methods the contact book calls
    (`isdigit`, `lower`, `capitalize`, `strip`, `split()`), narrowed to
    ASCII. */
module Text {
  import opened Seqs

  predicate IsDigit(c: char) { '0' <= c <= '9' }

  /** The ASCII characters that Python's `str.split()` and `str.strip()`
      treat as whitespace: tab, line feed, vertical tab, form feed,
      carriage return, the four separators 0x1C..0x1F, and space. */
  predicate IsSpace(c: char)
  {
    c == ' ' || 9 <= c as int <= 13 || 28 <= c as int <= 31
  }

  predicate IsUpper(c: char) { 'A' <= c <= 'Z' }

  predicate IsLower(c: char) { 'a' <= c <= 'z' }

  function LowerChar(c: char): char
  {
    if IsUpper(c) then (c as int + 32) as char else c
  }

  function UpperChar(c: char): char
  {
    if IsLower(c) then (c as int - 32) as char else c
  }

  /** `s.lower()`, one character at a time. */
  function Lower(s: string): (r: string)
    ensures |r| == |s|
    ensures forall i :: 0 <= i < |s| ==> r[i] == LowerChar(s[i])
    ensures forall i :: 0 <= i < |r| ==> !IsUpper(r[i])
  {
    if |s| == 0 then "" else [LowerChar(s[0])] + Lower(s[1..])
  }

  /** Lower-casing twice is lower-casing once. */
  lemma LowerIdempotent(s: string)
    ensures Lower(Lower(s)) == Lower(s)
  {
  }

  /** Lower-casing keeps whitespace where it is, so a token stays a token. */
  lemma LowerKeepsToken(w: string)
    requires Token(w)
    ensures Token(Lower(w))
  {
  }

  /** `s.capitalize()`: the first character upper-cased, the rest lower-cased. */
  function Capitalize(s: string): (r: string)
    ensures |r| == |s|
    ensures |s| > 0 ==> r[0] == UpperChar(s[0])
    ensures forall i :: 0 < i < |s| ==> r[i] == LowerChar(s[i])
  {
    if |s| == 0 then "" else [UpperChar(s[0])] + Lower(s[1..])
  }

  /** Every character is whitespace (the empty string included). */
  predicate Blank(s: string)
  {
    forall i :: 0 <= i < |s| ==> IsSpace(s[i])
  }

  /** What `split()` yields: a non-empty run of non-whitespace characters. */
  predicate Token(w: string)
  {
    |w| > 0 && forall i :: 0 <= i < |w| ==> !IsSpace(w[i])
  }

  /** `s.lstrip()`: drops the leading whitespace. */
  function TrimStart(s: string): (r: string)
    ensures |r| <= |s| && r == s[|s| - |r|..]
    ensures Blank(s[..|s| - |r|])
    ensures |r| > 0 ==> !IsSpace(r[0])
    decreases |s|
  {
    if |s| > 0 && IsSpace(s[0]) then TrimStart(s[1..]) else s
  }

  /** `s.rstrip()`: drops the trailing whitespace. */
  function TrimEnd(s: string): (r: string)
    ensures |r| <= |s| && r == s[..|r|]
    ensures Blank(s[|r|..])
    ensures |r| > 0 ==> !IsSpace(r[|r| - 1])
    decreases |s|
  {
    if |s| > 0 && IsSpace(s[|s| - 1]) then TrimEnd(s[..|s| - 1]) else s
  }

  /** `s.strip()`: `s` without its leading and trailing whitespace, so
      empty exactly when `s` is all whitespace. */
  function Strip(s: string): (r: string)
    ensures |r| == 0 <==> Blank(s)
    ensures |r| > 0 ==> !IsSpace(r[0]) && !IsSpace(r[|r| - 1])
    ensures StrippedAt(s, r, LeadingSpace(s))
  {
    var t := TrimStart(s);
    var r := TrimEnd(t);
    StripSlice(s, t, r);
    r
  }

  /** Trimming the end of what trimming the start left gives a slice of
      the original with only whitespace around it. */
  lemma StripSlice(s: string, t: string, r: string)
    requires |t| <= |s| && t == s[|s| - |t|..] && Blank(s[..|s| - |t|])
    requires |t| > 0 ==> !IsSpace(t[0])
    requires |r| <= |t| && r == t[..|r|] && Blank(t[|r|..])
    ensures StrippedAt(s, r, |s| - |t|)
    ensures |r| == 0 <==> Blank(s)
    ensures |r| > 0 ==> !IsSpace(r[0])
  {
    var i := |s| - |t|;
    assert s == s[..i] + t;
    assert |r| == 0 ==> t[|r|..] == t;
    assert s[i..i + |r|] == t[..|r|];
    assert s[i + |r|..] == t[|r|..];
  }

  /** How many whitespace characters `s` starts with. */
  function LeadingSpace(s: string): nat
  {
    |s| - |TrimStart(s)|
  }

  /** `r` is the slice of `s` starting at `i` with only whitespace before
      and after it. */
  predicate StrippedAt(s: string, r: string, i: int)
  {
    0 <= i && i + |r| <= |s| && r == s[i..i + |r|] && Blank(s[..i]) && Blank(s[i + |r|..])
  }

  /** Length of the leading run of non-whitespace characters. */
  function TokenEnd(s: string): (n: nat)
    ensures n <= |s|
    ensures forall i :: 0 <= i < n ==> !IsSpace(s[i])
    ensures n < |s| ==> IsSpace(s[n])
    decreases |s|
  {
    if |s| == 0 || IsSpace(s[0]) then 0 else 1 + TokenEnd(s[1..])
  }

  /** `s.split()` with no argument: the maximal runs of non-whitespace
      characters, in order; whitespace runs of any length separate them and
      leading or trailing whitespace yields no empty token. */
  function Words(s: string): (ws: seq<string>)
    ensures forall k :: 0 <= k < |ws| ==> Token(ws[k])
    ensures |ws| == 0 <==> Blank(s)
    decreases |s|
  {
    if |s| == 0 then []
    else if IsSpace(s[0]) then
      assert forall i :: 0 < i < |s| ==> s[i] == s[1..][i - 1];
      Words(s[1..])
    else
      var n := TokenEnd(s);
      [s[..n]] + Words(s[n..])
  }

  /** The end of the leading token does not depend on what follows the
      whitespace character that closes it. */
  lemma TokenEndBeforeSpace(a: string, c: char, b: string)
    requires IsSpace(c)
    ensures TokenEnd(a + [c] + b) == TokenEnd(a)
  {
    var s := a + [c] + b;
    var m := TokenEnd(a);
    assert forall i :: 0 <= i < |a| ==> s[i] == a[i];
    assert s[|a|] == c;
  }

  /** Any whitespace character separates: the words of `a`, a whitespace
      character and `b` are the words of `a` followed by the words of `b`.
      Together with `WordsOfToken` this fixes `split()` on every input. */
  lemma {:induction false} WordsAtSpace(a: string, c: char, b: string)
    requires IsSpace(c)
    ensures Words(a + [c] + b) == Words(a) + Words(b)
    decreases |a|
  {
    var s := a + [c] + b;
    if |a| == 0 {
      assert s == [c] + b;
      assert s[1..] == b;
    } else if IsSpace(a[0]) {
      assert s[1..] == a[1..] + [c] + b;
      WordsAtSpace(a[1..], c, b);
    } else {
      var m := TokenEnd(a);
      TokenEndBeforeSpace(a, c, b);
      assert s[..m] == a[..m];
      assert s[m..] == a[m..] + [c] + b;
      WordsAtSpace(a[m..], c, b);
    }
  }

  /** The non-whitespace characters of `s`, in order. */
  function NonSpace(s: string): string
    decreases |s|
  {
    if |s| == 0 then ""
    else if IsSpace(s[0]) then NonSpace(s[1..])
    else [s[0]] + NonSpace(s[1..])
  }

  lemma {:induction false} NonSpaceAppend(a: string, b: string)
    ensures NonSpace(a + b) == NonSpace(a) + NonSpace(b)
    decreases |a|
  {
    if |a| > 0 {
      assert (a + b)[1..] == a[1..] + b;
      NonSpaceAppend(a[1..], b);
    } else {
      assert a + b == b;
    }
  }

  lemma {:induction false} NonSpaceOfToken(w: string)
    requires forall i :: 0 <= i < |w| ==> !IsSpace(w[i])
    ensures NonSpace(w) == w
    decreases |w|
  {
    if |w| > 0 {
      NonSpaceOfToken(w[1..]);
    }
  }

  /** Splitting loses only whitespace: the tokens put back together are
      exactly the non-whitespace characters of the input. */
  lemma {:induction false} WordsKeepText(s: string)
    ensures Join(Words(s), "") == NonSpace(s)
    decreases |s|
  {
    if |s| == 0 {
    } else if IsSpace(s[0]) {
      WordsKeepText(s[1..]);
    } else {
      var n := TokenEnd(s);
      var rest := Words(s[n..]);
      WordsKeepText(s[n..]);
      assert s == s[..n] + s[n..];
      NonSpaceAppend(s[..n], s[n..]);
      NonSpaceOfToken(s[..n]);
      assert Words(s) == [s[..n]] + rest;
      JoinEmptyCons(s[..n], rest);
    }
  }

  lemma JoinEmptyCons(w: string, rest: seq<string>)
    ensures Join([w] + rest, "") == w + Join(rest, "")
  {
  }

  /** A token is one word. */
  lemma WordsOfToken(w: string)
    requires Token(w)
    ensures Words(w) == [w]
  {
    var n := TokenEnd(w);
    assert n == |w|;
    assert w[..n] == w;
    assert w[n..] == "";
    assert Words(w) == [w[..n]] + Words(w[n..]);
  }

  /** Splitting space-joined tokens gives the tokens back. */
  lemma {:induction false} WordsOfJoin(toks: seq<string>)
    requires forall k :: 0 <= k < |toks| ==> Token(toks[k])
    ensures Words(Join(toks, " ")) == toks
    decreases |toks|
  {
    if |toks| == 0 {
    } else if |toks| == 1 {
      WordsOfToken(toks[0]);
    } else {
      var t := toks[0];
      var rest := Join(toks[1..], " ");
      var s := Join(toks, " ");
      assert s == t + " " + rest;
      assert s[|t|] == ' ';
      assert forall i :: 0 <= i < |t| ==> s[i] == t[i];
      var n := TokenEnd(s);
      assert n == |t|;
      assert s[..n] == t;
      var tail := s[n..];
      assert tail == " " + rest;
      assert tail[1..] == rest;
      assert Words(tail) == Words(rest);
      WordsOfJoin(toks[1..]);
      assert toks == [t] + toks[1..];
    }
  }
}

=== FILE: wrappers.dfy ===
/** Failure-carrying values that stand in for the exceptions and `None`
    returns of the contact book. */
module Wrappers {

  /** `None` where the source returns Python's `None`. */
  datatype Option<+T> = None | Some(value: T)

  /** `Failure` where the source raises. */
  datatype Result<+R, +E> = Success(value: R) | Failure(error: E)
}
